=== FILE: README.md ===
# Browser shell: search-bar submission and window state

A Dafny model of the logic inside `app.py`, a single-window PyQt5 browser whose
rendering, networking and history all belong to the embedded Qt web engine. Two
pieces of that file carry behaviour worth stating:

- **Search-bar submission** (`BrowserWindow.load_url`). Text that contains `http://`
  or `https://` anywhere is loaded verbatim. Any other text becomes
  `https://www.google.com/search?q=` followed by `urllib.parse.quote_plus(text)`.
  `quote_plus` is modelled from its standard definition: UTF-8 encoding
  (section 3 of RFC 3629), then percent-encoding (section 2.1 of RFC 3986) of
  every byte outside the unreserved set of section 2.3 of RFC 3986, with upper-case
  hex digits, and a space written as `+` as in HTML form encoding.
- **The window's state machine.** The window is an immutable `Shell.Window` record:
  the views in the tab widget, the view objects still alive, the view that
  `self.webview` refers to, the search-bar text and the status-bar message. Each
  slot handler (`load_homepage`, `load_url`, `update_url_bar`, `update_progress`,
  `close_tab`, `tab_changed`) is one transition. `Shell.Valid` is the invariant:
  at least one tab, every tab a live view shown once, and a live active view.

Modules, one per concern:

| file | module | models |
|---|---|---|
| options.dfy | `Options` | the `Option` type used by the decoders |
| utf8.dfy | `Utf8` | `str.encode('utf-8')` and a strict decoder as its inverse |
| form_encoding.dfy | `FormEncoding` | `quote_plus` and a strict decoder as its inverse |
| decimal.dfy | `Decimal` | `str(int)` and its inverse |
| navigation.dfy | `Navigation` | the URL-or-query decision of `load_url` |
| shell.dfy | `Shell` | the window record, the handlers and the signal wiring |

Two details of the code are modelled as written:

- The active view is a reference to a view object, not a tab index. `close_tab`
  never touches `self.webview`. Closing the active tab therefore leaves it pointing
  at a view no tab shows, until the tab widget reports the new current tab
  (`Shell.CloseActiveThenSelect`).
- The `loadFinished` and `loadProgress` signals are connected only to the view
  built in the constructor (app.py:113-114). `update_url_bar`, however, reads
  whichever view is active (app.py:177). A reader might expect the search bar to
  follow loads of the active tab; the wiring does not, and the model follows the wiring
  (`Shell.OnLoadFinished`, `Shell.LoadSignalsFollowInitialView`). No handler opens
  a second tab, so in the shipped window the two readings agree
  (`Shell.RunKeepsSingleTab`).

## Model

| member | source | states |
|---|---|---|
| FormEncoding.EncodeByte | app.py:123 | one byte becomes one unit: itself if unreserved, `+` for a space, otherwise `%` and two upper-case hex digits whose value is the byte |
| FormEncoding.EncodeBytes | app.py:123 | the encoding of bytes uses only unreserved characters, `+` and `%`; every `%` starts a complete upper-case escape; its length is between one and three times the input's |
| FormEncoding.QuotePlus | app.py:123 | `quote_plus(text)` contains no space, only unreserved characters, `+` and `%`, and every `%` is followed by two upper-case hex digits |
| FormEncoding.DecodeEncodeBytes | app.py:123 | decoding the units gives back exactly the bytes that were encoded |
| FormEncoding.QuotePlusRoundTrip | app.py:123 | undoing the form encoding and then UTF-8 recovers the original text, so the query loses nothing |
| FormEncoding.QuotePlusInjective | app.py:123 | two different texts never give the same query |
| FormEncoding.EncodeBytesAppend | app.py:123 | the byte encoding works unit by unit: encoding a concatenation concatenates the encodings |
| FormEncoding.QuotePlusAppend | app.py:123 | each character contributes its own block of units, in input order |
| FormEncoding.QuotePlusPlain | app.py:123 | on text of unreserved characters and spaces the result has the same length, each space replaced by `+` and every other character unchanged |
| FormEncoding.QuotePlusLength | app.py:123 | the encoding has the length of the text if and only if every character is unreserved or a space |
| FormEncoding.QuotePlusIdentity | app.py:123 | the text passes through unchanged if and only if every character is unreserved |
| Utf8.EncodeChar | app.py:123 | a character becomes 1 to 4 bytes by its code point's range; ASCII is its own byte, other characters give only bytes of 0x80 or more, all but the first continuation bytes |
| Utf8.Encode | app.py:123 | `str.encode('utf-8')` inside `quote_plus`: each character gives one to four bytes, so the result is between one and four times the text's length |
| Utf8.DecodeEncode | app.py:123 | decoding the UTF-8 bytes of a text gives back the text |
| Utf8.EncodeInjective | app.py:123 | different texts have different UTF-8 bytes |
| Utf8.EncodeAppend | app.py:123 | the UTF-8 bytes of a concatenation are the two texts' bytes one after the other |
| Utf8.EncodeAscii | app.py:123 | an ASCII text's bytes are its code points |
| Decimal.NatToDecimal | app.py:181 | `str` of a natural number is a non-empty digit string with no leading zero |
| Decimal.IntToDecimal | app.py:181 | `str(n)`: a minus sign exactly for negative numbers, then only digits, with no leading zero |
| Decimal.IntToDecimalRoundTrip | app.py:181 | `int(str(n)) == n` for every integer, negative ones included |
| Navigation.ContainsIff | app.py:120 | the left-to-right scan used for `in` succeeds if and only if the needle occurs at some position |
| Navigation.SubmittedUrl | app.py:119-123 | text mentioning `http://` or `https://` at any position is the URL verbatim; other text gives a URL that starts with the search prefix, has no space, and whose query decodes back to the text |
| Navigation.SubmittedQuery | app.py:122-123 | for text without either marker the URL is exactly the search prefix followed by `quote_plus(text)` |
| Navigation.Contains | app.py:120 | Python's `needle in text`: a needle at the front of the text is found, and nothing longer than the text is |
| Navigation.LooksLikeUrl | app.py:120 | the test of `load_url` holds if and only if `http://` or `https://` occurs at some position of the text |
| Navigation.SubmittedUrlIdempotent | app.py:120-123 | submitting the resulting URL again loads the same URL, because a search URL itself contains `https://` |
| Navigation.SearchExample | app.py:122-123 | `hello world` becomes `https://www.google.com/search?q=hello+world` |
| Navigation.UrlExample | app.py:120-121 | `https://example.com` is loaded as it is |
| Navigation.EmbeddedMarkerExample | app.py:120-121 | a marker in the middle of the text, as in `see http://x`, is enough to load the text verbatim |
| Shell.Init | app.py:14-21 | the new window has one tab holding the initial view, which is active and shows the homepage, with an empty search bar |
| Shell.LoadHomepage | app.py:161-162 | the active view shows the homepage document and the search bar is empty; the tabs, the active reference, the status bar and every other view are unchanged |
| Shell.Submit | app.py:118-124 | the active view is asked to load the search text itself when it mentions a scheme marker, otherwise exactly the search prefix followed by `quote_plus` of the text, a URL whose query decodes back to the text; nothing else changes |
| Shell.UpdateUrlBar | app.py:176-178 | the search bar holds the active view's reported URL verbatim; nothing else changes |
| Shell.ProgressMessage | app.py:181 | the status message starts with `Loading... `, ends with `%`, and the text between parses back to the progress value |
| Shell.UpdateProgress | app.py:180-181 | the status bar holds the progress message; nothing else changes |
| Shell.CloseTab | app.py:183-185 | with more than one tab and an index naming a tab, exactly that tab goes and the others keep their order; otherwise the window is unchanged; at least one tab always remains; the active reference is never touched |
| Shell.TabChanged | app.py:187-189 | a non-negative index makes that tab's view the active one; a negative index changes nothing; nothing else changes either way |
| Shell.OnLoadFinished | app.py:113 | a load finished in the initial view puts the active view's URL in the search bar; the same signal from any other view does nothing |
| Shell.OnLoadProgress | app.py:114 | load progress of the initial view updates the status bar; progress of any other view does nothing |
| Shell.TypeSearchText | app.py:119 | typing replaces the search-bar text that `load_url` reads; nothing else changes and the window stays valid |
| Shell.TypeThenSubmit | app.py:119-124 | typing a text and pressing Return, from any valid window, asks the active view to load exactly the URL `load_url` computes for that text |
| Shell.Step | app.py:113-114 | dispatching one event the widgets can deliver (typing in the search bar, home click, Return, tab close, tab change, load signals, an engine URL change) to its handler, as wired at app.py:20-21, 54, 84 and 113-114, keeps the window valid |
| Shell.Run | app.py:184 | every sequence of events the widgets can deliver keeps the window valid: at least one tab, distinct live tabs, a live active view |
| Shell.RunKeepsSingleTab | app.py:183-189 | starting from a window whose one tab, active view and only live view are the initial view, every admissible sequence of events keeps it so: no tab is added or removed and the active view stays the initial one; every sequence whose tab changes report index 0 or -1 is admissible |
| Shell.InitialWindowStaysSingleTab | app.py:14-21 | the window as constructed keeps its single initial tab for ever, and every sequence of events whose tab changes report index 0 or -1 runs to completion |
| Shell.LoadSignalsFollowInitialView | app.py:113-114 | with another view active, a load in the initial view shows the active view's URL, and load signals of the active view are ignored |
| Shell.CloseActiveThenSelect | app.py:183-189 | closing the active tab leaves the active reference on a live view that no tab shows; the next tab change makes it a shown tab again |

## Left out

- Window construction, style sheets, toolbar and layout (app.py:9-111) and the
  `__main__` event loop (app.py:191-195): widget plumbing with no behaviour of its own.
- `navigate_back`, `navigate_forward` and `refresh_page` (app.py:164-171): each
  only calls the engine's history or reload, which the engine implements.
- Page loading itself. What a view reports as its URL is set by an engine event
  (`Shell.EngineUrlChanged`), never by the handlers; in particular the URL a view
  reports after `setHtml` is left to that event.
- `QUrl` parsing and normalisation (app.py:124): the model stops at the string
  passed to `QUrl`.
- The homepage HTML (app.py:127-160) is the single constant `HomepageDocument`.
- Tab titles (`"New Tab"`, app.py:17) and the tab bar's appearance.
- Signal dispatch order: each handler is one atomic transition.
- Shell.UpdateUrlBar: QLineEdit keeps at most maxLength (32767 by default) UTF-16
  units and `setText` truncates a longer URL; the model's search bar is unbounded.
  Text typed into the search bar (app.py:119) has the same limit, which the model
  does not impose either.
- Shell.TabChanged: requires an index below the tab count. The tab widget only
  reports a tab's index or -1; for a larger index `widget()` would return `None`.
- FormEncoding.QuotePlus: a Python string may hold a lone surrogate, on which
  `quote_plus` raises `UnicodeEncodeError`. A Dafny `char` is a Unicode scalar
  value, so such strings are outside the model.
- `quote_plus`'s optional `safe`, `encoding` and `errors` arguments: app.py uses
  the defaults only.

=== FILE: decimal.dfy ===
/** Python's `str(n)` for an integer: optional minus sign, then the decimal digits
    with no leading zero. */
module Decimal {
  import opened Options

  predicate IsDigit(c: char)
  {
    '0' <= c <= '9'
  }

  function DigitChar(d: nat): (c: char)
    requires d < 10
    ensures IsDigit(c)
  {
    ('0' as int + d) as char
  }

  /** Digits of a natural number, most significant first. */
  function NatToDecimal(n: nat): (s: string)
    ensures |s| >= 1
    ensures forall i | 0 <= i < |s| :: IsDigit(s[i])
    ensures s[0] == '0' ==> n == 0
    decreases n
  {
    if n < 10 then [DigitChar(n)] else NatToDecimal(n / 10) + [DigitChar(n % 10)]
  }

  /** `str(n)`. */
  function IntToDecimal(n: int): (s: string)
    ensures |s| >= 1
    ensures s[0] == '-' <==> n < 0
    ensures forall i | (if n < 0 then 1 else 0) <= i < |s| :: IsDigit(s[i])
    ensures |s| > 1 && n >= 0 ==> s[0] != '0'
    ensures n < 0 ==> |s| >= 2 && s[1] != '0'
  {
    if n < 0 then "-" + NatToDecimal(-n) else NatToDecimal(n)
  }

  /** Value of a string of digits, read most significant first. */
  function DigitsValue(s: string): nat
    requires forall i | 0 <= i < |s| :: IsDigit(s[i])
    decreases |s|
  {
    if |s| == 0 then 0
    else
      assert IsDigit(s[|s| - 1]);
      DigitsValue(s[..|s| - 1]) * 10 + (s[|s| - 1] as int - '0' as int)
  }

  /** `int(s)` for the strings `str` produces; `None` for anything else. */
  function ParseInt(s: string): (r: Option<int>)
  {
    if |s| >= 2 && s[0] == '-' && (forall i | 1 <= i < |s| :: IsDigit(s[i])) && s[1] != '0' then
      Some(-(DigitsValue(s[1..]) as int))
    else if |s| >= 1 && (forall i | 0 <= i < |s| :: IsDigit(s[i])) && (s[0] != '0' || |s| == 1) then
      Some(DigitsValue(s))
    else None
  }

  lemma {:induction false} NatToDecimalValue(n: nat)
    ensures DigitsValue(NatToDecimal(n)) == n
    decreases n
  {
    if n >= 10 {
      NatToDecimalValue(n / 10);
      var s := NatToDecimal(n);
      assert s[..|s| - 1] == NatToDecimal(n / 10);
    }
  }

  /** `int(str(n)) == n`. */
  lemma IntToDecimalRoundTrip(n: int)
    ensures ParseInt(IntToDecimal(n)) == Some(n)
  {
    if n < 0 {
      NatToDecimalValue(-n);
      assert IntToDecimal(n)[1..] == NatToDecimal(-n);
    } else {
      NatToDecimalValue(n);
    }
  }
}

=== FILE: form_encoding.dfy ===
/** `urllib.parse.quote_plus(text)` with its default arguments, as app.py:123 calls it:
    the text is UTF-8 encoded, every byte outside the unreserved set of section 2.3 of
    RFC 3986 is percent-encoded as in section 2.1 of RFC 3986 with upper-case hex
    digits, and a space becomes `+`, as in HTML `application/x-www-form-urlencoded`
    form data. */
module FormEncoding {
  import opened Options
  import Utf8

  type byte = Utf8.byte

  /** ALPHA / DIGIT / "-" / "." / "_" / "~" (RFC 3986, section 2.3). */
  predicate IsUnreserved(c: char)
  {
    'A' <= c <= 'Z' || 'a' <= c <= 'z' || '0' <= c <= '9' || c == '-' || c == '.' || c == '_' || c == '~'
  }

  predicate IsUnreservedByte(b: byte)
  {
    b < 0x80 && IsUnreserved(b as char)
  }

  predicate IsUpperHex(c: char)
  {
    '0' <= c <= '9' || 'A' <= c <= 'F'
  }

  /** The characters an encoded query may contain. */
  predicate IsFormChar(c: char)
  {
    IsUnreserved(c) || c == '+' || c == '%'
  }

  function HexDigit(n: nat): (c: char)
    requires n < 16
    ensures IsUpperHex(c)
  {
    if n < 10 then ('0' as int + n) as char else ('A' as int + n - 10) as char
  }

  function HexValue(c: char): (n: nat)
    requires IsUpperHex(c)
    ensures n < 16 && HexDigit(n) == c
  {
    if c <= '9' then c as int - '0' as int else c as int - 'A' as int + 10
  }

  /** The one- or three-character unit a single byte becomes. */
  function EncodeByte(b: byte): (u: string)
    ensures |u| == 1 <==> IsUnreservedByte(b) || b == 0x20
    ensures |u| == 1 || |u| == 3
    ensures IsUnreservedByte(b) ==> u == [b as char]
    ensures b == 0x20 ==> u == "+"
    ensures |u| == 3 ==> u[0] == '%' && IsUpperHex(u[1]) && IsUpperHex(u[2])
                         && HexValue(u[1]) * 16 + HexValue(u[2]) == b
  {
    if IsUnreservedByte(b) then [b as char]
    else if b == 0x20 then "+"
    else ['%', HexDigit(b / 16), HexDigit(b % 16)]
  }

  /** Every '%' in `r` starts a complete upper-case escape. */
  predicate EscapesComplete(r: string)
  {
    forall i | 0 <= i < |r| && r[i] == '%' :: i + 2 < |r| && IsUpperHex(r[i + 1]) && IsUpperHex(r[i + 2])
  }

  /** Percent-encoding of a byte string, unit by unit in order. */
  function EncodeBytes(bs: seq<byte>): (r: string)
    ensures forall i | 0 <= i < |r| :: IsFormChar(r[i])
    ensures EscapesComplete(r)
    ensures |bs| <= |r| <= 3 * |bs|
    decreases |bs|
  {
    if |bs| == 0 then []
    else
      var u := EncodeByte(bs[0]);
      var rest := EncodeBytes(bs[1..]);
      assert forall i | |u| <= i < |u + rest| :: (u + rest)[i] == rest[i - |u|];
      u + rest
  }

  /** The encoded form of a text: `quote_plus(text)`. */
  function QuotePlus(s: string): (r: string)
    ensures ' ' !in r
    ensures forall i | 0 <= i < |r| :: IsFormChar(r[i])
    ensures EscapesComplete(r)
    ensures |s| <= |r|
  {
    var r := EncodeBytes(Utf8.Encode(s));
    assert forall i | 0 <= i < |r| :: r[i] != ' ' by {
      forall i | 0 <= i < |r| ensures r[i] != ' ' { assert IsFormChar(r[i]); }
    }
    r
  }

  /** Strict decoder of what `EncodeBytes` produces: each unreserved character
      stands for its own byte, `+` for a space, `%HH` for the byte 0xHH; anything
      else is refused. */
  function DecodeBytes(r: string): Option<seq<byte>>
    decreases |r|
  {
    if |r| == 0 then Some([])
    else if IsUnreserved(r[0]) then Prepend(r[0] as int, DecodeBytes(r[1..]))
    else if r[0] == '+' then Prepend(0x20, DecodeBytes(r[1..]))
    else if r[0] == '%' && |r| >= 3 && IsUpperHex(r[1]) && IsUpperHex(r[2]) then
      Prepend(HexValue(r[1]) * 16 + HexValue(r[2]), DecodeBytes(r[3..]))
    else None
  }

  /** The inverse of `QuotePlus`: undo the form encoding, then UTF-8. */
  function UnquotePlus(r: string): Option<string>
  {
    match DecodeBytes(r)
    case None => None
    case Some(bs) => Utf8.Decode(bs)
  }

  lemma {:induction false} EncodeBytesAppend(a: seq<byte>, b: seq<byte>)
    ensures EncodeBytes(a + b) == EncodeBytes(a) + EncodeBytes(b)
    decreases |a|
  {
    if |a| == 0 {
      assert a + b == b;
    } else {
      assert (a + b)[1..] == a[1..] + b;
      EncodeBytesAppend(a[1..], b);
    }
  }

  /** Decoding reads back exactly the unit a byte was encoded as. */
  lemma DecodeUnit(b: byte, rest: string)
    ensures DecodeBytes(EncodeByte(b) + rest) == Prepend(b, DecodeBytes(rest))
  {
  }

  lemma {:induction false} DecodeEncodeBytes(bs: seq<byte>)
    ensures DecodeBytes(EncodeBytes(bs)) == Some(bs)
    decreases |bs|
  {
    if |bs| > 0 {
      DecodeUnit(bs[0], EncodeBytes(bs[1..]));
      DecodeEncodeBytes(bs[1..]);
      assert [bs[0]] + bs[1..] == bs;
    }
  }

  /** `quote_plus` loses nothing: the query determines the text. */
  lemma QuotePlusRoundTrip(s: string)
    ensures UnquotePlus(QuotePlus(s)) == Some(s)
  {
    DecodeEncodeBytes(Utf8.Encode(s));
    Utf8.DecodeEncode(s);
  }

  lemma QuotePlusInjective(s: string, t: string)
    requires QuotePlus(s) == QuotePlus(t)
    ensures s == t
  {
    QuotePlusRoundTrip(s);
    QuotePlusRoundTrip(t);
  }

  /** Each character contributes its own block of units, in order. */
  lemma QuotePlusAppend(a: string, b: string)
    ensures QuotePlus(a + b) == QuotePlus(a) + QuotePlus(b)
  {
    Utf8.EncodeAppend(a, b);
    EncodeBytesAppend(Utf8.Encode(a), Utf8.Encode(b));
  }

  /** The unit an ASCII unreserved character or a space becomes: itself, or `+`. */
  function PlainUnit(c: char): char
  {
    if c == ' ' then '+' else c
  }

  predicate IsPlain(c: char)
  {
    IsUnreserved(c) || c == ' '
  }

  /** On unreserved characters and spaces `quote_plus` only turns spaces into `+`. */
  lemma {:induction false} QuotePlusPlain(s: string)
    requires forall i | 0 <= i < |s| :: IsPlain(s[i])
    ensures QuotePlus(s) == seq(|s|, i requires 0 <= i < |s| => PlainUnit(s[i]))
    decreases |s|
  {
    if |s| > 0 {
      QuotePlusPlain(s[1..]);
      QuotePlusAppend([s[0]], s[1..]);
      assert [s[0]] + s[1..] == s;
      assert Utf8.Encode([s[0]]) == [s[0] as int];
    }
  }

  /** `QuotePlusPlain` for a given expected result, character by character. */
  lemma QuotePlusOfPlain(s: string, expected: string)
    requires |expected| == |s|
    requires forall i | 0 <= i < |s| :: IsPlain(s[i]) && expected[i] == PlainUnit(s[i])
    ensures QuotePlus(s) == expected
  {
    QuotePlusPlain(s);
  }

  /** Characters outside the plain set make the encoding strictly longer. */
  lemma {:induction false} QuotePlusGrows(s: string)
    requires exists i | 0 <= i < |s| :: !IsPlain(s[i])
    ensures |QuotePlus(s)| > |s|
    decreases |s|
  {
    QuotePlusAppend([s[0]], s[1..]);
    assert [s[0]] + s[1..] == s;
    var u := Utf8.EncodeChar(s[0]);
    assert Utf8.Encode([s[0]]) == u;
    if IsPlain(s[0]) {
      assert exists i | 0 <= i < |s[1..]| :: !IsPlain(s[1..][i]) by {
        var i :| 0 <= i < |s| && !IsPlain(s[i]);
        assert s[1..][i - 1] == s[i];
      }
      QuotePlusGrows(s[1..]);
    } else {
      EncodeBytesAppend([u[0]], u[1..]);
      assert [u[0]] + u[1..] == u;
      assert |QuotePlus([s[0]])| >= 2;
    }
  }

  /** The length is preserved exactly when the text is plain. */
  lemma QuotePlusLength(s: string)
    ensures |QuotePlus(s)| == |s| <==> forall i | 0 <= i < |s| :: IsPlain(s[i])
  {
    if forall i | 0 <= i < |s| :: IsPlain(s[i]) {
      QuotePlusPlain(s);
    } else {
      QuotePlusGrows(s);
    }
  }

  /** The text comes through unchanged exactly when it is all unreserved. */
  lemma QuotePlusIdentity(s: string)
    ensures QuotePlus(s) == s <==> forall i | 0 <= i < |s| :: IsUnreserved(s[i])
  {
    if forall i | 0 <= i < |s| :: IsUnreserved(s[i]) {
      QuotePlusPlain(s);
    } else if forall i | 0 <= i < |s| :: IsPlain(s[i]) {
      QuotePlusPlain(s);
      var i :| 0 <= i < |s| && !IsUnreserved(s[i]);
      assert QuotePlus(s)[i] == '+';
    } else {
      QuotePlusGrows(s);
    }
  }
}

=== FILE: navigation.dfy ===
/** What the search bar hands to the engine when Return is pressed
    (`BrowserWindow.load_url`, app.py:118-124): the text itself when it mentions
    `http://` or `https://` anywhere, otherwise a search-engine query for it. */
module Navigation {
  import opened Options
  import FormEncoding

  const HttpMarker: string := "http://"
  const HttpsMarker: string := "https://"
  const SearchPrefix: string := "https://www.google.com/search?q="

  /** `needle` occurs in `text` starting at position `i`. */
  predicate OccursAt(text: string, needle: string, i: int)
  {
    0 <= i && i + |needle| <= |text| && text[i..i + |needle|] == needle
  }

  /** Python's `needle in text`, scanning left to right. */
  function Contains(text: string, needle: string): (found: bool)
    ensures |needle| <= |text| && text[..|needle|] == needle ==> found
    ensures found ==> |needle| <= |text|
    decreases |text|
  {
    (|needle| <= |text| && text[..|needle|] == needle) || (|text| > 0 && Contains(text[1..], needle))
  }

  /** The scan finds the needle exactly when it occurs at some position. */
  lemma {:induction false} ContainsIff(text: string, needle: string)
    ensures Contains(text, needle) <==> exists i :: OccursAt(text, needle, i)
    decreases |text|
  {
    if |needle| <= |text| && text[..|needle|] == needle {
      assert OccursAt(text, needle, 0);
    } else if |text| > 0 {
      ContainsIff(text[1..], needle);
      if Contains(text[1..], needle) {
        var i :| OccursAt(text[1..], needle, i);
        assert text[1..][i..i + |needle|] == text[i + 1..i + 1 + |needle|];
        assert OccursAt(text, needle, i + 1);
      } else {
        forall i | OccursAt(text, needle, i)
          ensures false
        {
          assert i != 0;
          assert text[i..i + |needle|] == text[1..][i - 1..i - 1 + |needle|];
          assert OccursAt(text[1..], needle, i - 1);
        }
      }
    } else {
      forall i | OccursAt(text, needle, i)
        ensures false
      {
      }
    }
  }

  /** The naive test of app.py:120: a marker anywhere, not only as a prefix. */
  predicate LooksLikeUrl(text: string)
    ensures LooksLikeUrl(text) <==> MentionsScheme(text)
  {
    ContainsIff(text, HttpMarker);
    ContainsIff(text, HttpsMarker);
    Contains(text, HttpMarker) || Contains(text, HttpsMarker)
  }

  /** Reference reading of the test: one of the two markers occurs somewhere. */
  ghost predicate MentionsScheme(text: string)
  {
    (exists i :: OccursAt(text, HttpMarker, i)) || (exists i :: OccursAt(text, HttpsMarker, i))
  }

  /** The string handed to `QUrl` by `load_url` for the search-bar text `text`. */
  function SubmittedUrl(text: string): (url: string)
    ensures MentionsScheme(text) ==> url == text
    ensures !MentionsScheme(text) ==>
              && |SearchPrefix| <= |url|
              && url[..|SearchPrefix|] == SearchPrefix
              && FormEncoding.UnquotePlus(url[|SearchPrefix|..]) == Some(text)
              && ' ' !in url
  {
    if LooksLikeUrl(text) then text
    else
      SearchUrlFacts(text);
      SearchPrefix + FormEncoding.QuotePlus(text)
  }

  /** The search URL for `text` starts with the prefix, has no space, and its
      query decodes back to the text. */
  lemma SearchUrlFacts(text: string)
    ensures var url := SearchPrefix + FormEncoding.QuotePlus(text);
            && |SearchPrefix| <= |url|
            && url[..|SearchPrefix|] == SearchPrefix
            && FormEncoding.UnquotePlus(url[|SearchPrefix|..]) == Some(text)
            && ' ' !in url
  {
    var q := FormEncoding.QuotePlus(text);
    var url := SearchPrefix + q;
    FormEncoding.QuotePlusRoundTrip(text);
    assert url[|SearchPrefix|..] == q;
    assert ' ' !in SearchPrefix;
    assert ' ' !in q;
  }

  /** The query branch is exactly the prefix followed by `quote_plus(text)`. */
  lemma SubmittedQuery(text: string)
    ensures !MentionsScheme(text) ==> SubmittedUrl(text) == SearchPrefix + FormEncoding.QuotePlus(text)
  {
  }

  /** A search URL itself carries `https://`, so submitting it again loads it
      unchanged: submitting the search bar twice is the same as once. */
  lemma SubmittedUrlIdempotent(text: string)
    ensures SubmittedUrl(SubmittedUrl(text)) == SubmittedUrl(text)
  {
  }

  /** A needle with a character the text lacks occurs nowhere in it. */
  lemma AbsentCharacter(text: string, needle: string, k: int)
    requires 0 <= k < |needle| && needle[k] !in text
    ensures forall i :: !OccursAt(text, needle, i)
  {
  }

  const HelloWorld: string := "hello world"

  lemma HelloWorldQuery()
    ensures FormEncoding.QuotePlus(HelloWorld) == "hello+world"
  {
    FormEncoding.QuotePlusOfPlain(HelloWorld, "hello+world");
  }

  /** The example of the search box: "hello world" becomes a query with `+`. */
  lemma SearchExample()
    ensures SubmittedUrl(HelloWorld) == SearchPrefix + "hello+world"
  {
    AbsentCharacter(HelloWorld, HttpMarker, 1);
    AbsentCharacter(HelloWorld, HttpsMarker, 1);
    SubmittedQuery(HelloWorld);
    HelloWorldQuery();
  }

  lemma UrlExample()
    ensures SubmittedUrl("https://example.com") == "https://example.com"
  {
    assert OccursAt("https://example.com", HttpsMarker, 0);
  }

  /** A marker in the middle of the text is enough, as in "see http://x". */
  lemma EmbeddedMarkerExample()
    ensures SubmittedUrl("see http://x") == "see http://x"
  {
    assert OccursAt("see http://x", HttpMarker, 4);
  }
}

=== FILE: options.dfy ===
/** The optional-value datatype used by the decoders of this model. */
module Options {

  datatype Option<+T> = None | Some(value: T)

  /** Puts `x` in front of a successfully decoded sequence; failure stays failure. */
  function Prepend<T>(x: T, o: Option<seq<T>>): (r: Option<seq<T>>)
    ensures r.Some? <==> o.Some?
    ensures r.Some? ==> |r.value| == |o.value| + 1 && r.value[0] == x && r.value[1..] == o.value
  {
    match o
    case None => None
    case Some(xs) => Some([x] + xs)
  }
}

=== FILE: shell.dfy ===
/** The browser window of app.py as an immutable record, and each of its Qt slot
    handlers as one atomic transition. The web engine is reduced to a store of
    views, each reporting a URL and showing some content. */
module Shell {
  import opened Options
  import Navigation
  import FormEncoding
  import Decimal

  /** Identity of one `QWebEngineView` object. */
  type ViewId = nat

  /** What a view was last told to show: nothing yet, the built-in homepage
      (`setHtml`, whose exact HTML is not modelled), or the URL given to `load`. */
  datatype Content = Nothing | HomepageDocument | Requested(url: string)

  /** An engine view: the URL its `url()` reports and its content. */
  datatype View = View(url: string, content: Content)

  /** The window: the views in the tab widget in tab order, every view object
      still alive, the view `self.webview` refers to, the search-bar text and the
      status-bar message. */
  datatype Window = Window(
    tabs: seq<ViewId>,
    views: map<ViewId, View>,
    active: ViewId,
    searchText: string,
    statusText: string)

  /** The view built in the constructor, the only one whose load signals are connected. */
  const InitialView: ViewId := 0

  /** At least one tab, every tab a live view shown once, and `self.webview` a live view. */
  predicate Valid(w: Window)
  {
    && |w.tabs| >= 1
    && (forall i | 0 <= i < |w.tabs| :: w.tabs[i] in w.views)
    && (forall i, j | 0 <= i < j < |w.tabs| :: w.tabs[i] != w.tabs[j])
    && w.active in w.views
  }

  /** The active view is one of the tabs. Closing the active tab breaks this until
      the tab widget reports the new current tab. */
  predicate ActiveShown(w: Window)
  {
    w.active in w.tabs
  }

  /** `__init__` (app.py:9-21, 113-116): one tab holding the initial view, then the homepage. */
  function Init(): (w: Window)
    ensures Valid(w) && ActiveShown(w)
    ensures |w.tabs| == 1 && w.active == InitialView
    ensures w.views[w.active].content == HomepageDocument && w.searchText == ""
  {
    LoadHomepage(Window([InitialView], map[InitialView := View("", Nothing)], InitialView, "", ""))
  }

  /** `load_homepage` (app.py:126-162): the active view shows the homepage and the
      search bar is cleared. */
  function LoadHomepage(w: Window): (r: Window)
    requires Valid(w)
    ensures Valid(r)
    ensures r.views[r.active].content == HomepageDocument
    ensures r.searchText == ""
    ensures r.views[r.active].url == w.views[w.active].url
    ensures r.tabs == w.tabs && r.active == w.active && r.statusText == w.statusText
    ensures r.views.Keys == w.views.Keys
    ensures forall v | v in w.views && v != w.active :: r.views[v] == w.views[v]
  {
    var view := w.views[w.active];
    w.(views := w.views[w.active := view.(content := HomepageDocument)], searchText := "")
  }

  /** `search` / `load_url` (app.py:118-124, 173-174): the active view is asked to
      load the URL the search-bar text stands for. */
  function Submit(w: Window): (r: Window)
    requires Valid(w)
    ensures Valid(r)
    ensures Navigation.MentionsScheme(w.searchText) ==>
              r.views[r.active].content == Requested(w.searchText)
    ensures !Navigation.MentionsScheme(w.searchText) ==>
              && r.views[r.active].content.Requested?
              && var url := r.views[r.active].content.url;
                 && |Navigation.SearchPrefix| <= |url|
                 && url[..|Navigation.SearchPrefix|] == Navigation.SearchPrefix
                 && FormEncoding.UnquotePlus(url[|Navigation.SearchPrefix|..]) == Some(w.searchText)
    ensures !Navigation.MentionsScheme(w.searchText) ==>
              r.views[r.active].content == Requested(Navigation.SearchPrefix + FormEncoding.QuotePlus(w.searchText))
    ensures r.views[r.active].url == w.views[w.active].url
    ensures r.tabs == w.tabs && r.active == w.active
    ensures r.searchText == w.searchText && r.statusText == w.statusText
    ensures r.views.Keys == w.views.Keys
    ensures forall v | v in w.views && v != w.active :: r.views[v] == w.views[v]
  {
    var view := w.views[w.active];
    Navigation.SubmittedQuery(w.searchText);
    w.(views := w.views[w.active := view.(content := Requested(Navigation.SubmittedUrl(w.searchText)))])
  }

  /** `update_url_bar` (app.py:176-178): the search bar shows the URL of the view
      `self.webview` refers to, whichever view emitted the signal. */
  function UpdateUrlBar(w: Window): (r: Window)
    requires Valid(w)
    ensures Valid(r)
    ensures r.searchText == w.views[w.active].url
    ensures r.tabs == w.tabs && r.views == w.views && r.active == w.active && r.statusText == w.statusText
  {
    w.(searchText := w.views[w.active].url)
  }

  const ProgressPrefix: string := "Loading... "

  /** The status message `f"Loading... {progress}%"`. */
  function ProgressMessage(progress: int): (m: string)
    ensures |m| > |ProgressPrefix| + 1
    ensures m[..|ProgressPrefix|] == ProgressPrefix && m[|m| - 1] == '%'
    ensures Decimal.ParseInt(m[|ProgressPrefix|..|m| - 1]) == Some(progress)
  {
    var digits := Decimal.IntToDecimal(progress);
    var m := ProgressPrefix + digits + "%";
    assert m[|ProgressPrefix|..|m| - 1] == digits;
    Decimal.IntToDecimalRoundTrip(progress);
    m
  }

  /** `update_progress` (app.py:180-181): the status bar reports the percentage. */
  function UpdateProgress(w: Window, progress: int): (r: Window)
    requires Valid(w)
    ensures Valid(r)
    ensures r.statusText == ProgressMessage(progress)
    ensures r.tabs == w.tabs && r.views == w.views && r.active == w.active && r.searchText == w.searchText
  {
    w.(statusText := ProgressMessage(progress))
  }

  /** `close_tab` (app.py:183-185): the tab at `index` goes, unless it is the last
      one. `QTabWidget.removeTab` ignores an index that names no tab. The view
      object stays alive, and `self.webview` is not touched. */
  function CloseTab(w: Window, index: int): (r: Window)
    requires Valid(w)
    ensures Valid(r)
    ensures |w.tabs| > 1 && 0 <= index < |w.tabs| ==>
              && |r.tabs| == |w.tabs| - 1
              && (forall j | 0 <= j < index :: r.tabs[j] == w.tabs[j])
              && (forall j | index <= j < |r.tabs| :: r.tabs[j] == w.tabs[j + 1])
              && w.tabs[index] !in r.tabs
    ensures !(|w.tabs| > 1 && 0 <= index < |w.tabs|) ==> r == w
    ensures r.views == w.views && r.active == w.active
    ensures r.searchText == w.searchText && r.statusText == w.statusText
  {
    if |w.tabs| > 1 && 0 <= index < |w.tabs| then
      var tabs := w.tabs[..index] + w.tabs[index + 1..];
      assert forall j | index <= j < |tabs| :: tabs[j] == w.tabs[j + 1];
      assert w.tabs[index] !in tabs by {
        forall j | 0 <= j < |tabs| ensures tabs[j] != w.tabs[index] {
          if j >= index { assert tabs[j] == w.tabs[j + 1]; }
        }
      }
      w.(tabs := tabs)
    else w
  }

  /** `tab_changed` (app.py:187-189): a non-negative index makes that tab's view
      the active one; -1 (no current tab) changes nothing. Qt never reports an
      index past the last tab. */
  function TabChanged(w: Window, index: int): (r: Window)
    requires Valid(w)
    requires index < |w.tabs|
    ensures Valid(r)
    ensures index >= 0 ==> r.active == w.tabs[index] && ActiveShown(r)
    ensures index < 0 ==> r == w
    ensures r.tabs == w.tabs && r.views == w.views
    ensures r.searchText == w.searchText && r.statusText == w.statusText
  {
    if index >= 0 then w.(active := w.tabs[index]) else w
  }

  /** `loadFinished` of view `sender`: only the initial view is connected
      (app.py:113), so any other view's signal reaches no handler. */
  function OnLoadFinished(w: Window, sender: ViewId): (r: Window)
    requires Valid(w)
    ensures Valid(r)
    ensures sender == InitialView ==> r.searchText == w.views[w.active].url
    ensures sender != InitialView ==> r == w
    ensures r.tabs == w.tabs && r.views == w.views && r.active == w.active && r.statusText == w.statusText
  {
    if sender == InitialView then UpdateUrlBar(w) else w
  }

  /** `loadProgress` of view `sender`: only the initial view is connected (app.py:114). */
  function OnLoadProgress(w: Window, sender: ViewId, progress: int): (r: Window)
    requires Valid(w)
    ensures Valid(r)
    ensures sender == InitialView ==> r.statusText == ProgressMessage(progress)
    ensures sender != InitialView ==> r == w
    ensures r.tabs == w.tabs && r.views == w.views && r.active == w.active && r.searchText == w.searchText
  {
    if sender == InitialView then UpdateProgress(w, progress) else w
  }

  /** The user edits the search bar (the `QLineEdit` of app.py:83); the new text
      is what `load_url` reads at app.py:119. Nothing in app.py runs. */
  function TypeSearchText(w: Window, text: string): (r: Window)
    requires Valid(w)
    ensures Valid(r)
    ensures r.searchText == text
    ensures r.tabs == w.tabs && r.views == w.views && r.active == w.active && r.statusText == w.statusText
  {
    w.(searchText := text)
  }

  /** The engine changes the URL a live view reports; nothing in app.py runs. */
  function EngineUrlChanged(w: Window, view: ViewId, url: string): (r: Window)
    requires Valid(w)
    ensures Valid(r)
    ensures view in w.views ==> view in r.views && r.views[view] == w.views[view].(url := url)
    ensures forall v | v in w.views && v != view :: v in r.views && r.views[v] == w.views[v]
    ensures r.views.Keys == w.views.Keys
    ensures r.tabs == w.tabs && r.active == w.active
    ensures r.searchText == w.searchText && r.statusText == w.statusText
  {
    if view in w.views then w.(views := w.views[view := w.views[view].(url := url)]) else w
  }

  /** Everything that can happen to the window: user actions (typing, Return,
      the Home button, closing a tab), the tab widget's signals, the engine's
      signals and the engine's own progress. */
  datatype Event =
    | Typed(text: string)
    | HomeClicked
    | ReturnPressed
    | TabCloseRequested(index: int)
    | CurrentChanged(index: int)
    | LoadFinished(sender: ViewId)
    | LoadProgress(sender: ViewId, progress: int)
    | UrlChanged(view: ViewId, url: string)

  /** The tab widget only reports a current index that names a tab, or -1. */
  predicate Admissible(w: Window, e: Event)
  {
    e.CurrentChanged? ==> e.index < |w.tabs|
  }

  function Step(w: Window, e: Event): (r: Window)
    requires Valid(w) && Admissible(w, e)
    ensures Valid(r)
  {
    match e
    case Typed(t) => TypeSearchText(w, t)
    case HomeClicked => LoadHomepage(w)
    case ReturnPressed => Submit(w)
    case TabCloseRequested(i) => CloseTab(w, i)
    case CurrentChanged(i) => TabChanged(w, i)
    case LoadFinished(v) => OnLoadFinished(w, v)
    case LoadProgress(v, p) => OnLoadProgress(w, v, p)
    case UrlChanged(v, u) => EngineUrlChanged(w, v, u)
  }

  /** The window after a sequence of events; `None` when one of them is
      something the tab widget never reports. */
  function Run(w: Window, events: seq<Event>): (r: Option<Window>)
    requires Valid(w)
    ensures r.Some? ==> Valid(r.value)
    decreases |events|
  {
    if |events| == 0 then Some(w)
    else if !Admissible(w, events[0]) then None
    else Run(Step(w, events[0]), events[1..])
  }

  /** No handler opens a tab, so the window keeps exactly its initial tab, and the
      load signals it listens to are always those of the active view. */
  predicate SingleTab(w: Window)
  {
    w.tabs == [InitialView] && w.active == InitialView && w.views.Keys == {InitialView}
  }

  /** Events a one-tab window can receive: the tab widget reports only index 0 or -1. */
  predicate OneTabEvents(events: seq<Event>)
  {
    forall k | 0 <= k < |events| :: events[k].CurrentChanged? ==> events[k].index <= 0
  }

  lemma {:induction false} RunKeepsSingleTab(w: Window, events: seq<Event>)
    requires Valid(w) && SingleTab(w)
    ensures Run(w, events).Some? ==> SingleTab(Run(w, events).value)
    ensures OneTabEvents(events) ==> Run(w, events).Some?
    decreases |events|
  {
    if |events| > 0 && Admissible(w, events[0]) {
      assert OneTabEvents(events) ==> OneTabEvents(events[1..]) by {
        if OneTabEvents(events) {
          forall k | 0 <= k < |events[1..]| && events[1..][k].CurrentChanged?
            ensures events[1..][k].index <= 0
          {
            assert events[1..][k] == events[k + 1];
          }
        }
      }
      var e := events[0];
      var w' := Step(w, e);
      if e.CurrentChanged? && e.index >= 0 {
        assert w'.active == w.tabs[e.index];
      }
      assert SingleTab(w');
      RunKeepsSingleTab(w', events[1..]);
    }
  }

  lemma InitialWindowStaysSingleTab(events: seq<Event>)
    ensures Run(Init(), events).Some? ==> SingleTab(Run(Init(), events).value)
    ensures OneTabEvents(events) ==> Run(Init(), events).Some?
  {
    RunKeepsSingleTab(Init(), events);
  }

  /** Typing a text and pressing Return asks the active view to load the URL that
      text stands for. */
  lemma TypeThenSubmit(w: Window, text: string)
    requires Valid(w)
    ensures Run(w, [Typed(text), ReturnPressed]).Some?
    ensures var r := Run(w, [Typed(text), ReturnPressed]).value;
            r.views[r.active].content == Requested(Navigation.SubmittedUrl(text))
  {
    var w1 := Step(w, Typed(text));
    assert [Typed(text), ReturnPressed][1..] == [ReturnPressed];
    assert [ReturnPressed][1..] == [];
    assert Run(w, [Typed(text), ReturnPressed]) == Run(w1, [ReturnPressed]);
  }

  /** With a second tab active, a load in the initial view shows the active
      view's URL in the search bar, and a load in the active view shows nothing. */
  lemma LoadSignalsFollowInitialView(w: Window, progress: int)
    requires Valid(w) && w.active != InitialView
    ensures OnLoadFinished(w, InitialView).searchText == w.views[w.active].url
    ensures OnLoadFinished(w, w.active) == w
    ensures OnLoadProgress(w, w.active, progress) == w
  {
  }

  /** Closing the active tab leaves `self.webview` on a view no tab shows, until
      the tab widget reports the new current tab. */
  lemma CloseActiveThenSelect(w: Window, index: int, next: int)
    requires Valid(w) && |w.tabs| > 1 && 0 <= index < |w.tabs| && w.tabs[index] == w.active
    requires 0 <= next < |w.tabs| - 1
    ensures !ActiveShown(CloseTab(w, index))
    ensures CloseTab(w, index).active in CloseTab(w, index).views
    ensures ActiveShown(TabChanged(CloseTab(w, index), next))
  {
  }
}

=== FILE: utf8.dfy ===
/** UTF-8, as defined in section 3 of RFC 3629: the byte form a Python `str` takes
    before it is percent-encoded by `urllib.parse.quote_plus`. A Dafny `char` is a
    Unicode scalar value, so every string has an encoding. */
module Utf8 {
  import opened Options

  type byte = x: int | 0 <= x < 256

  /** Number of bytes RFC 3629 uses for the scalar value `cp`. */
  function Width(cp: int): nat
  {
    if cp < 0x80 then 1 else if cp < 0x800 then 2 else if cp < 0x10000 then 3 else 4
  }

  /** Continuation bytes have the form 10xxxxxx. */
  predicate IsContinuation(b: byte)
  {
    0x80 <= b < 0xC0
  }

  /** The bytes of one scalar value. */
  function EncodeChar(c: char): (bs: seq<byte>)
    ensures |bs| == Width(c as int)
    ensures c as int < 0x80 ==> bs == [c as int]
    ensures c as int >= 0x80 ==> forall i | 0 <= i < |bs| :: bs[i] >= 0x80
    ensures forall i | 1 <= i < |bs| :: IsContinuation(bs[i])
  {
    var cp := c as int;
    if cp < 0x80 then [cp]
    else if cp < 0x800 then [0xC0 + cp / 0x40, 0x80 + cp % 0x40]
    else if cp < 0x10000 then [0xE0 + cp / 0x1000, 0x80 + (cp / 0x40) % 0x40, 0x80 + cp % 0x40]
    else [0xF0 + cp / 0x40000, 0x80 + (cp / 0x1000) % 0x40, 0x80 + (cp / 0x40) % 0x40, 0x80 + cp % 0x40]
  }

  /** `s.encode('utf-8')`: the characters' byte groups, one after the other. */
  function Encode(s: string): (bs: seq<byte>)
    ensures |s| <= |bs| <= 4 * |s|
    decreases |s|
  {
    if |s| == 0 then [] else EncodeChar(s[0]) + Encode(s[1..])
  }

  /** Sequence length announced by a lead byte, 0 when `b` cannot start a sequence. */
  function LeadWidth(b: byte): nat
  {
    if b < 0x80 then 1
    else if 0xC0 <= b < 0xE0 then 2
    else if 0xE0 <= b < 0xF0 then 3
    else if 0xF0 <= b < 0xF8 then 4
    else 0
  }

  /** The scalar value carried by a sequence whose length its lead byte announces. */
  function CodePoint(bs: seq<byte>): int
    requires 1 <= |bs| <= 4 && LeadWidth(bs[0]) == |bs|
  {
    if |bs| == 1 then bs[0]
    else if |bs| == 2 then (bs[0] as int - 0xC0) * 0x40 + (bs[1] as int - 0x80)
    else if |bs| == 3 then (bs[0] as int - 0xE0) * 0x1000 + (bs[1] as int - 0x80) * 0x40 + (bs[2] as int - 0x80)
    else (bs[0] as int - 0xF0) * 0x40000 + (bs[1] as int - 0x80) * 0x1000 + (bs[2] as int - 0x80) * 0x40 + (bs[3] as int - 0x80)
  }

  predicate IsScalarValue(cp: int)
  {
    0 <= cp < 0xD800 || 0xE000 <= cp < 0x110000
  }

  /** Strict decoder: refuses truncated, overlong and surrogate sequences. */
  function Decode(bs: seq<byte>): Option<string>
    decreases |bs|
  {
    if |bs| == 0 then Some([])
    else
      var n := LeadWidth(bs[0]);
      if n == 0 || |bs| < n || exists i | 1 <= i < n :: !IsContinuation(bs[i]) then None
      else
        var cp := CodePoint(bs[..n]);
        if !IsScalarValue(cp) || Width(cp) != n then None
        else Prepend(cp as char, Decode(bs[n..]))
  }

  lemma EncodeCharCodePoint(c: char)
    ensures LeadWidth(EncodeChar(c)[0]) == |EncodeChar(c)|
    ensures CodePoint(EncodeChar(c)) == c as int
  {
    var cp := c as int;
    if cp >= 0x10000 {
      assert cp / 0x40 == (cp / 0x1000) * 0x40 + (cp / 0x40) % 0x40;
      assert cp / 0x1000 == (cp / 0x40000) * 0x40 + (cp / 0x1000) % 0x40;
    } else if cp >= 0x800 {
      assert cp / 0x40 == (cp / 0x1000) * 0x40 + (cp / 0x40) % 0x40;
    }
  }

  lemma {:induction false} EncodeAppend(a: string, b: string)
    ensures Encode(a + b) == Encode(a) + Encode(b)
    decreases |a|
  {
    if |a| == 0 {
      assert a + b == b;
    } else {
      assert (a + b)[1..] == a[1..] + b;
      EncodeAppend(a[1..], b);
    }
  }

  /** Decoding undoes encoding: `bytes.decode('utf-8')` recovers the text. */
  lemma {:induction false} DecodeEncode(s: string)
    ensures Decode(Encode(s)) == Some(s)
    decreases |s|
  {
    if |s| > 0 {
      var u := EncodeChar(s[0]);
      var bs := Encode(s);
      assert bs == u + Encode(s[1..]);
      EncodeCharCodePoint(s[0]);
      assert bs[..|u|] == u;
      assert bs[|u|..] == Encode(s[1..]);
      DecodeEncode(s[1..]);
      assert [s[0]] + s[1..] == s;
    }
  }

  /** Different texts have different encodings. */
  lemma EncodeInjective(s: string, t: string)
    requires Encode(s) == Encode(t)
    ensures s == t
  {
    DecodeEncode(s);
    DecodeEncode(t);
  }

  /** An all-ASCII text encodes to its code points (the non-ASCII case is in
      the contract of `EncodeChar`). */
  lemma {:induction false} EncodeAscii(s: string)
    ensures (forall i | 0 <= i < |s| :: s[i] as int < 0x80) ==>
              Encode(s) == seq(|s|, i requires 0 <= i < |s| => s[i] as int)
    decreases |s|
  {
    if |s| > 0 {
      EncodeAscii(s[1..]);
    }
  }
}
